=== FILE: README.md ===
# weibo_crawl profile crawler — a Dafny model

`weibo_crawl.py` crawls public Weibo profiles. On start-up it creates the
profile table `weibo_user_info.csv` with a 13-column header if the table is
missing. It then reads a session-cookie string from its configuration and
walks the configured account IDs in order. For each ID it does one of three
things:

- it skips the ID without a request when column 0 of some table row already
  holds that ID;
- it requests the profile and appends one 13-column row when the answer has
  status 200 and `ok == 1`;
- it logs the failure and moves on.

This project models that core in Dafny:

| file | module | what it models |
|---|---|---|
| `wrappers.dfy` | `Wrappers` | `Option` and `Result` |
| `text.dfy` | `Text` | Python's `str.split(sep)` and `sep.join`, and `str(int)` |
| `cookies.dfy` | `Cookies` | the cookie block of `init_config` |
| `profile.dfy` | `Profile` | JSON scalars, `str()`, the CSV writer's cell text, `row_headers`, the profile row |
| `profile_store.dfy` | `ProfileStore` | the profile table as a sequence of rows, its creation, `check_user_info_exist` |
| `profile_crawl.dfy` | `ProfileCrawl` | `get_user_info` and `parse_user_info` as one fold over the ID list |
| `crawler.dfy` | `Crawler` | one run: table creation, cookie parsing, crawl |

The rest of the script is abstracted:

- The upstream service is a parameter. It is a function from the cookie jar
  and an account ID to a `Response`: a raised transport error, or a status
  plus a decoded body.
- The body gives the `ok` value, if present, and the `data.user` object, if
  present.
- The table is the sequence of rows a CSV reader returns.
- A run's outcome is `Completed` or `Aborted`, and both carry the table as
  the run leaves it. `Completed` carries one event per ID. `Aborted` carries
  one event per ID before `failedId`, which gets none.
- `Aborted` covers an exception that escapes the loop. That is a request that
  raised, a status-200 body that is not a JSON object or has no `ok` key, or
  an `ok` equal to 1 without a `data.user` object. Rows already appended stay
  in the table.

Every field missing from `data.user` becomes an empty cell, except gender.
The code reads gender with `get('gender')` and no default, then passes it
through `str()`, so a missing gender is stored as `None`
(`Profile.ProfileRow`, `Profile.NicknameAndFollowersOnly`).

The crawl lemmas rest on a few proof helpers that state bookkeeping facts
about the event log rather than behaviour of the program, and have no row
below:

- `ProfileCrawl.RowsOfConcat` and `ProfileCrawl.RowsOfCons`: the rows of
  concatenated event logs.
- `ProfileCrawl.PrependedRun`, `ProfileCrawl.TableBeforeShifted` and
  `ProfileCrawl.ShiftExplains`: one turn followed by the run of the
  remaining IDs.
- `ProfileCrawl.EarlierRowsAppended` and `ProfileCrawl.PresentAfterTurn`:
  a row appended earlier is seen by later turns.

## Model

| member | source | states |
|---|---|---|
| `Text.Split` | weibo_crawl.py:83-84 | `split` returns at least one piece. No piece contains the separator. Joining the pieces with the separator gives back the input. |
| `Text.SplitJoin` | weibo_crawl.py:83-84 | Splitting a join of separator-free pieces gives back exactly those pieces, so `split` cuts at every separator and nowhere else. |
| `Text.SplitCutsIff` | weibo_crawl.py:84-85 | A segment has a second piece (`cook[1]` exists) exactly when it contains `=`. |
| `Text.NatToDecimal` | weibo_crawl.py:141-149 | `str` of a non-negative int is non-empty, all decimal digits, and has no leading zero. |
| `Text.DecimalRoundTrip` | weibo_crawl.py:141-149 | Reading back the decimal text that `str` gives for a non-negative int yields the same number. |
| `Cookies.SegmentKeyValue` | weibo_crawl.py:84-85 | For a segment containing `=`, the key is the untrimmed text before the first `=`. The value is the text after it, up to the next `=` or the end. Anything after a second `=` is dropped. |
| `Cookies.SegmentOfParts` | weibo_crawl.py:84-85 | Joining two or more `=`-free pieces with `=` gives a segment whose key is the first piece and whose value is the second. |
| `Cookies.AddSegments` | weibo_crawl.py:83-85 | The loop succeeds iff every segment contains `=`. Otherwise it fails on the first segment without `=`. On success the keys are the prior keys plus every segment's key. |
| `Cookies.ParseCookies` | weibo_crawl.py:80-92 | An absent `cookies` entry fails with the missing-key error. Otherwise parsing succeeds iff every `;`-segment contains `=`, so an empty string or a trailing `;` fails. A failure for a present string names one of its segments, and that segment has no `=`. A successful jar is never empty, and the "no cookies" error can never occur. |
| `Cookies.LaterSegmentWins` | weibo_crawl.py:83-85 | Each key in the folded jar holds the value of the last segment naming it. Keys that no segment names keep their prior value. |
| `Cookies.CookieJarLookup` | weibo_crawl.py:80-92 | A parsed cookie string maps each key to the value of its last segment, and holds no other keys. |
| `Cookies.CookieExampleEmptySegment` | weibo_crawl.py:83-92 | `""` and `"a=1;"` fail, naming the empty segment. |
| `Profile.ProfileRow` | weibo_crawl.py:131-154 | The row has as many cells as `row_headers`, with the account ID first. Every other cell equals `ExpectedCell` of its column, which reads only that column's `data.user` field. A string value is stored verbatim, an integer in decimal, and a boolean as `True`/`False`. `null` is stored as empty, or as `None` in the `str()`-wrapped columns. A missing field gives an empty cell, except gender, which gives `None`. |
| `Profile.OnlyProfileFieldsMatter` | weibo_crawl.py:129-154 | Two user objects that agree on the twelve profile fields give the same row. No other field is read. |
| `Profile.NicknameAndFollowersOnly` | weibo_crawl.py:131-154 | A user object with only `screen_name` "Alice" and `followers_count_str` "10" gives a row with those two cells, `None` for gender, and empty cells elsewhere. |
| `ProfileStore.UserInfoExists` | weibo_crawl.py:94-101 | True iff some non-empty row has the ID in column 0. No other column is consulted. |
| `ProfileStore.ExistsAfterAppend` | weibo_crawl.py:94-101 | Appending rows never hides a present ID. An appended row whose first cell is the ID makes that ID present. |
| `ProfileStore.FreshStoreKnowsOnlyHeaderId` | weibo_crawl.py:33-38 | In a freshly created table only the header row exists, so `id` is reported as present and no other ID is. |
| `ProfileCrawl.HandleResponse` | weibo_crawl.py:125-158 | A row is stored exactly when the status is 200, `ok` equals 1 (the integer 1 or `true`) and `data.user` is present; the row is the profile row of that ID. A soft failure, with nothing appended, happens exactly when the status is not 200 or `ok` is present but not 1, and it records that status or `ok` value. Each raising case carries its own reason: the request raised, the body is not a JSON object, `ok` is missing, or `data.user` is missing. |
| `ProfileCrawl.Crawl` | weibo_crawl.py:107-158 | The table is only extended, by the rows of the `Appended` events in event order. There is one event per processed ID, in list order. A completed run processed every ID. An aborted run stopped at the first unprocessed ID. |
| `ProfileCrawl.CrawlTrace` | weibo_crawl.py:107-154 | Each ID's turn matches the table as it stood then, including rows appended earlier in the same run. The turn skips iff the ID is present, and otherwise appends or logs as the response dictates. An abort comes from a missing ID whose response raises. |
| `ProfileCrawl.AppendedRowShape` | weibo_crawl.py:152-154 | Every appended row has exactly as many cells as `row_headers`, with its ID in column 0. |
| `ProfileCrawl.AtMostOneRowPerId` | weibo_crawl.py:107-154 | In one run, an ID already in the table gains no row, and no two appended rows carry the same ID. |
| `ProfileCrawl.StoredIdsAreNotFetched` | weibo_crawl.py:107-111 | An ID present before the run is never requested. Every one of its turns is a skip, and the run cannot abort on it. |
| `ProfileCrawl.SoftFailuresDoNotAbort` | weibo_crawl.py:107-158 | When no response for an ID missing from the table raises, the run processes every ID, whatever the statuses and `ok` values. Answers for IDs already stored do not matter, since those IDs are never requested. |
| `ProfileCrawl.ProcessedIdsSettle` | weibo_crawl.py:107-158 | At the end of any run, completed or aborted, every ID the loop got to is in the table or its response is one that is only logged. |
| `ProfileCrawl.CompletedRunSettlesEveryId` | weibo_crawl.py:107-158 | After a completed run, every ID is in the table or its response is one that is only logged. |
| `ProfileCrawl.SettledRunAppendsNothing` | weibo_crawl.py:107-158 | If every ID is present or answered with a logged failure, the run completes and leaves the table unchanged. |
| `ProfileCrawl.RerunWithAllStoredIsANoOp` | weibo_crawl.py:107-111 | With every ID already stored, a run requests nothing, skips every ID and leaves the table unchanged. |
| `ProfileCrawl.SettledThenFatal` | weibo_crawl.py:107-158 | If every ID before position `k` is present or only logged, and the ID at `k` is missing and its response raises, the run aborts at that ID, for that reason, after `k` turns, and appends nothing. |
| `ProfileCrawl.CrawlIdempotent` | weibo_crawl.py:107-158 | With the same upstream answers, a crawl started from the table any crawl left behind leaves that table unchanged and ends the same way. It completes if the first crawl completed, and otherwise aborts at the same ID for the same reason. |
| `Crawler.Run` | weibo_crawl.py:29-164 | A run fails at start-up iff the cookie configuration fails. In that case it makes no request and leaves the table as `__init__` created it. Otherwise the run carries the jar that cookie parsing built. Its crawl covers the configured IDs, starts from the table `__init__` left, and sends that jar with every request. The final table always extends the initial one. |
| `Crawler.RunTwiceIsIdempotent` | weibo_crawl.py:29-164 | With the same configuration and upstream answers, a second run leaves the table exactly as the first run left it, whatever the first run's outcome. A configuration failure repeats. A completed crawl completes again. An aborted crawl aborts again at the same ID. |

## Left out

- Logging (lines 12-25 and every `logger` call): it has no effect on the table.
- Directory creation, file opening, the `utf-8-sig` byte-order mark and CSV quoting. The table is the sequence of rows a CSV reader returns. The model assumes that reading the file back gives exactly the rows written. That fails in three corner cases. A cell holding `\r` reads back as `\n`, because the file is read without `newline=''`. An existing file without a final line break merges its last line with the first appended row. A profile field longer than the CSV reader's field-size limit (131072 characters by default) is written without complaint, but from then on every existence check that reads past that row raises `_csv.Error` at line 97. Each later run then aborts at the first ID not found before that row, where the model requests it instead. Only column 0 is read, and IDs from `splitlines()` hold no `\r`. The header line is written with `','.join`, which a CSV reader reads back as the same 13 cells because no header contains a comma or a quote.
- An I/O error while appending: it would end the run, and it is not modelled.
- Loading the configuration (lines 64-79): the model takes the resulting account IDs as a sequence of strings. That code calls `.endswith` on `user_id_list`, so only a string value gets through. A value ending in `txt` (not only `.txt`) is opened as a file and yields its lines. Any other string is iterated character by character.
- The request header dictionary, the per-ID `referer` rewrite (lines 114-115) and the URL: they are network plumbing. A request's answer depends only on the cookie jar and the ID.
- `random.uniform` and `sleep` (lines 117-119): timing only.
- JSON floats and nested arrays or objects, both as `data.user` field values and as `ok`. `Value` covers strings, integers, booleans and `null`. An `ok` of `1.0`, which Python treats as equal to 1 and so stores a row, is not modelled. Neither is an `ok` that is another float, an array or an object; the code logs each of these as a soft failure at lines 155-156, as the model does for every other `ok` value that is not 1.
- A `cookies` configuration value that is not a string, which makes `split` raise: the model covers only an absent value and a string.
- Post pagination, long-text expansion and the per-account post tables: this script does not contain them.
- `ProfileCrawl.Crawl`: a request's answer is a fixed function of the cookie jar and the ID. So two requests for the same ID in one run get the same answer, and an upstream whose answers change over time is not modelled.

=== FILE: cookies.dfy ===
/** The session-cookie block of `init_config`: the configured cookie string is
    cut at every `;`, each segment is cut at every `=`, and the first two
    pieces become a key and a value of the cookie jar. */
module Cookies {
  import opened Wrappers
  import Text

  type Jar = map<string, string>

  /** Why reading the cookie configuration fails; every kind is re-raised and
      ends start-up. */
  datatype ConfigError =
    | MissingCookieKey                     // `config['cookies']` is absent
    | SegmentWithoutEquals(segment: string) // `cook[1]` does not exist
    | NoCookies                            // the jar is empty after the loop

  /** `seg.split("=")[0]`: everything before the first `=`, untrimmed. */
  function SegmentKey(seg: string): string
  {
    Text.Split(seg, '=')[0]
  }

  /** `seg.split("=")[1]`: the text between the first and the second `=`. */
  function SegmentValue(seg: string): string
    requires '=' in seg
  {
    Text.SplitCutsIff(seg, '=');
    Text.Split(seg, '=')[1]
  }

  /** What key and value a segment yields, in terms of the segment's characters:
      the key is the text up to the first `=`, the value is the text after it
      up to the next `=` or the end; anything after a second `=` is dropped. */
  lemma {:induction false} SegmentKeyValue(seg: string)
    requires '=' in seg
    ensures var k, v := SegmentKey(seg), SegmentValue(seg);
      && '=' !in k && '=' !in v
      && |k| + 1 + |v| <= |seg|
      && seg[..|k|] == k && seg[|k|] == '='
      && seg[|k| + 1..|k| + 1 + |v|] == v
      && (|k| + 1 + |v| == |seg| || seg[|k| + 1 + |v|] == '=')
  {
    var parts := Text.Split(seg, '=');
    Text.SplitCutsIff(seg, '=');
    Text.JoinShowsSeparator(parts, '=');
    var k, v := parts[0], parts[1];
    var tail := parts[1..];
    assert seg == k + ['='] + Text.Join(tail, '=');
    assert seg[|k| + 1..] == Text.Join(tail, '=');
    if |tail| >= 2 {
      Text.JoinShowsSeparator(tail, '=');
      assert seg[|k| + 1..] == v + ['='] + Text.Join(tail[1..], '=');
    } else {
      assert seg[|k| + 1..] == v;
    }
    assert seg[|k| + 1..][..|v|] == v;
  }

  /** The keys named by a non-empty segment list: the first segment's key
      plus those named by the rest. */
  lemma SegmentKeysShift(segs: seq<string>)
    requires |segs| > 0
    ensures (set i | 0 <= i < |segs| :: SegmentKey(segs[i]))
         == {SegmentKey(segs[0])} + (set i | 0 <= i < |segs[1..]| :: SegmentKey(segs[1..][i]))
  {
    var a := set i | 0 <= i < |segs| :: SegmentKey(segs[i]);
    var b := set i | 0 <= i < |segs[1..]| :: SegmentKey(segs[1..][i]);
    forall k | k in a ensures k in {SegmentKey(segs[0])} + b {
      var i :| 0 <= i < |segs| && SegmentKey(segs[i]) == k;
      if i > 0 { assert SegmentKey(segs[1..][i - 1]) == k; }
    }
    forall k | k in b ensures k in a {
      var i :| 0 <= i < |segs[1..]| && SegmentKey(segs[1..][i]) == k;
      assert SegmentKey(segs[i + 1]) == k;
    }
  }

  /** The `for cook in ...` loop: folds the segments into `jar` in order,
      raising on the first segment that has no `=`. */
  function AddSegments(jar: Jar, segs: seq<string>): (r: Result<Jar, ConfigError>)
    ensures r.Success? <==> forall i :: 0 <= i < |segs| ==> '=' in segs[i]
    ensures r.Failure? ==>
              exists i :: && 0 <= i < |segs| && '=' !in segs[i]
                          && r.error == SegmentWithoutEquals(segs[i])
                          && forall j :: 0 <= j < i ==> '=' in segs[j]
    ensures r.Success? ==> r.value.Keys == jar.Keys + set i | 0 <= i < |segs| :: SegmentKey(segs[i])
    decreases |segs|
  {
    if |segs| == 0 then Success(jar)
    else
      var parts := Text.Split(segs[0], '=');
      Text.SplitCutsIff(segs[0], '=');
      if |parts| < 2 then Failure(SegmentWithoutEquals(segs[0]))
      else
        var r := AddSegments(jar[parts[0] := parts[1]], segs[1..]);
        assert forall i :: 1 <= i < |segs| ==> segs[i] == segs[1..][i - 1];
        assert r.Failure? ==>
                 exists i :: && 0 <= i < |segs[1..]| && '=' !in segs[1..][i]
                             && r.error == SegmentWithoutEquals(segs[1..][i])
                             && (forall j :: 0 <= j < i ==> '=' in segs[1..][j])
                             && i + 1 < |segs| && segs[i + 1] == segs[1..][i];
        SegmentKeysShift(segs);
        r
  }

  /** `init_config`'s cookie handling: `None` stands for a configuration
      without a `cookies` entry. */
  function ParseCookies(cookie: Option<string>): (r: Result<Jar, ConfigError>)
    ensures cookie.None? ==> r == Failure(MissingCookieKey)
    ensures cookie.Some? ==>
      (r.Success? <==> forall seg :: seg in Text.Split(cookie.value, ';') ==> '=' in seg)
    ensures cookie.Some? && r.Failure? ==>
      && r.error.SegmentWithoutEquals?
      && '=' !in r.error.segment
      && r.error.segment in Text.Split(cookie.value, ';')
    ensures r.Success? ==> |r.value| > 0
    ensures r != Failure(NoCookies)
  {
    match cookie
    case None => Failure(MissingCookieKey)
    case Some(c) =>
      var segs := Text.Split(c, ';');
      var jar :- AddSegments(map[], segs);
      assert SegmentKey(segs[0]) in jar;
      if |jar| == 0 then Failure(NoCookies) else Success(jar)
  }

  /** Reference reading of the jar: the value of the LAST segment naming `k`,
      else whatever `jar` held before. */
  function LastValue(jar: Jar, segs: seq<string>, k: string): Option<string>
    requires forall i :: 0 <= i < |segs| ==> '=' in segs[i]
  {
    if |segs| == 0 then (if k in jar then Some(jar[k]) else None)
    else
      var last := segs[|segs| - 1];
      if SegmentKey(last) == k then Some(SegmentValue(last))
      else LastValue(jar, segs[..|segs| - 1], k)
  }

  /** Folding one segment into the jar first is the same as reading it as the
      earliest segment. */
  lemma {:induction false} LastValueShift(jar: Jar, seg: string, rest: seq<string>, k: string)
    requires '=' in seg
    requires forall i :: 0 <= i < |rest| ==> '=' in rest[i]
    ensures LastValue(jar[SegmentKey(seg) := SegmentValue(seg)], rest, k)
         == LastValue(jar, [seg] + rest, k)
    decreases |rest|
  {
    var all := [seg] + rest;
    if |rest| == 0 {
      assert all[..|all| - 1] == [];
    } else {
      assert all[|all| - 1] == rest[|rest| - 1];
      assert all[..|all| - 1] == [seg] + rest[..|rest| - 1];
      LastValueShift(jar, seg, rest[..|rest| - 1], k);
    }
  }

  /** A later segment overwrites an earlier one with the same key: every key of
      the parsed jar holds the value of the last segment that names it. */
  lemma {:induction false} LaterSegmentWins(jar: Jar, segs: seq<string>, k: string)
    requires AddSegments(jar, segs).Success?
    ensures forall i :: 0 <= i < |segs| ==> '=' in segs[i]
    ensures var m := AddSegments(jar, segs).value;
      && (k in m <==> LastValue(jar, segs, k).Some?)
      && (k in m ==> m[k] == LastValue(jar, segs, k).value)
    decreases |segs|
  {
    if |segs| > 0 {
      var seg := segs[0];
      Text.SplitCutsIff(seg, '=');
      assert '=' in seg;
      var jar' := jar[SegmentKey(seg) := SegmentValue(seg)];
      assert AddSegments(jar, segs) == AddSegments(jar', segs[1..]);
      LaterSegmentWins(jar', segs[1..], k);
      assert forall i :: 0 <= i < |segs| ==> '=' in segs[i] by {
        assert forall i :: 1 <= i < |segs| ==> segs[i] == segs[1..][i - 1];
      }
      LastValueShift(jar, seg, segs[1..], k);
      assert [seg] + segs[1..] == segs;
    }
  }

  /** The configured cookie string parses to exactly the jar the last-segment
      reading describes. */
  lemma {:induction false} CookieJarLookup(cookie: string, k: string)
    requires ParseCookies(Some(cookie)).Success?
    ensures var segs := Text.Split(cookie, ';');
      var m := ParseCookies(Some(cookie)).value;
      && (forall i :: 0 <= i < |segs| ==> '=' in segs[i])
      && (k in m <==> LastValue(map[], segs, k).Some?)
      && (k in m ==> m[k] == LastValue(map[], segs, k).value)
  {
    LaterSegmentWins(map[], Text.Split(cookie, ';'), k);
  }

  /** Joining `=`-free pieces with `=` makes a segment whose key is the first
      piece and whose value is the second. */
  lemma {:induction false} SegmentOfParts(parts: seq<string>)
    requires |parts| >= 2
    requires forall i :: 0 <= i < |parts| ==> '=' !in parts[i]
    ensures '=' in Text.Join(parts, '=')
    ensures SegmentKey(Text.Join(parts, '=')) == parts[0]
    ensures SegmentValue(Text.Join(parts, '=')) == parts[1]
  {
    Text.SplitJoin(parts, '=');
    Text.SplitCutsIff(Text.Join(parts, '='), '=');
  }

  /** An empty cookie string or a trailing `;` leaves a segment without `=`,
      so parsing fails. */
  lemma CookieExampleEmptySegment()
    ensures ParseCookies(Some("")) == Failure(SegmentWithoutEquals(""))
    ensures ParseCookies(Some("a=1;")) == Failure(SegmentWithoutEquals(""))
  {
    assert Text.Join(["a=1", ""], ';') == "a=1;";
    Text.SplitJoin(["a=1", ""], ';');
    assert Text.Join(["a", "1"], '=') == "a=1";
    Text.SplitJoin(["a", "1"], '=');
    assert ["a=1", ""][1..] == [""];
  }
}

=== FILE: crawler.dfy ===
/** One execution of the script: `__init__` creates the profile table if it
    is missing, `init_config` parses the cookie string (raising on failure),
    and `parse_user_info` runs the profile crawl with that cookie jar. */
module Crawler {
  import opened Wrappers
  import opened ProfileStore
  import opened ProfileCrawl
  import Cookies

  /** The upstream service: the answer to a profile request depends on the
      cookies sent with it and on the requested ID. */
  type Upstream = (Cookies.Jar, string) -> Response

  datatype RunResult =
    | ConfigFailed(table: Store, error: Cookies.ConfigError)
    | Ran(jar: Cookies.Jar, crawl: CrawlResult)
  {
    /** The profile table as the run leaves it on disk. */
    function FinalTable(): Store
    {
      if ConfigFailed? then table else crawl.store
    }
  }

  /** The requests of a run all carry the same jar. */
  function FetchWith(upstream: Upstream, jar: Cookies.Jar): string -> Response
  {
    id => upstream(jar, id)
  }

  /** A configuration error ends the run before any request, leaving the table
      as `__init__` made it; otherwise the crawl only appends to that table. */
  function Run(existing: Option<Store>, cookie: Option<string>, ids: seq<string>, upstream: Upstream)
    : (r: RunResult)
    ensures r.ConfigFailed? <==> Cookies.ParseCookies(cookie).Failure?
    ensures r.ConfigFailed? ==> r.FinalTable() == InitStore(existing)
    ensures |InitStore(existing)| <= |r.FinalTable()|
    ensures r.FinalTable()[..|InitStore(existing)|] == InitStore(existing)
    ensures r.Ran? ==> r.jar == Cookies.ParseCookies(cookie).value
    ensures r.Ran? ==> r.crawl == Crawl(ids, InitStore(existing), FetchWith(upstream, r.jar))
  {
    var table := InitStore(existing);
    var parsed := Cookies.ParseCookies(cookie);
    if parsed.Failure? then ConfigFailed(table, parsed.error)
    else
      var crawl := Crawl(ids, table, FetchWith(upstream, parsed.value));
      assert crawl.store[..|table|] == table;
      Ran(parsed.value, crawl)
  }

  /** Running the script a second time against the same upstream answers
      leaves the table as the first run left it and ends the same way: a
      configuration error again, a completed crawl again, or an abort at the
      same ID. */
  lemma {:induction false} RunTwiceIsIdempotent(existing: Option<Store>, cookie: Option<string>, ids: seq<string>,
                             upstream: Upstream)
    ensures var first := Run(existing, cookie, ids, upstream);
      var second := Run(Some(first.FinalTable()), cookie, ids, upstream);
      && second.FinalTable() == first.FinalTable()
      && second.ConfigFailed? == first.ConfigFailed?
      && (first.Ran? ==> second.crawl.Completed? == first.crawl.Completed?)
      && (first.Ran? && first.crawl.Aborted? ==> second.crawl.failedId == first.crawl.failedId)
  {
    var first := Run(existing, cookie, ids, upstream);
    if first.Ran? {
      var jar := Cookies.ParseCookies(cookie).value;
      CrawlIdempotent(ids, InitStore(existing), FetchWith(upstream, jar));
    }
  }
}

=== FILE: profile.dfy ===
/** The profile row that `parse_user_info` builds from the `data.user` object
    of a successful response, and the header row of the profile table. */
module Profile {
  import Text

  /** A JSON scalar as Python's `json` module hands it over. */
  datatype Value = JStr(text: string) | JInt(num: int) | JBool(flag: bool) | JNull

  /** The `data.user` object: field name to value. */
  type UserInfo = map<string, Value>

  type Row = seq<string>

  /** `str(v)`. */
  function PyStr(v: Value): string
  {
    match v
    case JStr(t) => t
    case JInt(n) => Text.IntToDecimal(n)
    case JBool(b) => if b then "True" else "False"
    case JNull => "None"
  }

  /** The text `csv.writer` stores for a cell holding `v`: like `str(v)`,
      except that `None` becomes the empty string. */
  function CsvCell(v: Value): string
  {
    if v.JNull? then "" else PyStr(v)
  }

  /** `user.get(key, default)`. */
  function Get(user: UserInfo, key: string, default: Value): Value
  {
    if key in user then user[key] else default
  }

  /** `row_headers`: the column layout of the profile table. */
  const RowHeaders: Row :=
    ["id", "昵称", "头像", "是否认证", "认证原因", "个人简介",
     "位置", "粉丝数量", "关注数量", "微博数量", "vvip", "svip", "性别"]

  /** The `data.user` field read for column `i` is `ProfileKeys[i - 1]`;
      column 0 holds the account ID. */
  const ProfileKeys: seq<string> :=
    ["screen_name", "profile_image_url", "verified", "verified_reason", "description",
     "location", "followers_count_str", "friends_count", "statuses_count", "vvip", "svip",
     "gender"]

  /** The only field read without a default. */
  const GenderColumn: nat := 12

  /** Columns whose value goes through `str()` before reaching the CSV writer. */
  predicate Stringified(col: nat)
  {
    col == 3 || 7 <= col <= 12
  }

  /** The text a column holds when its field is absent from `data.user`. */
  function MissingText(col: nat): string
  {
    if col == GenderColumn then "None" else ""
  }

  /** The text column `col` must hold for `user`, read off the column's
      field: a string value verbatim, an integer in decimal, a boolean as
      `True`/`False`, `null` as empty or `None` depending on whether the
      column is passed through `str()`, and an absent field as `MissingText`. */
  function ExpectedCell(user: UserInfo, col: nat): string
    requires 1 <= col <= |ProfileKeys|
  {
    var key := ProfileKeys[col - 1];
    if key !in user then MissingText(col)
    else match user[key]
      case JStr(t) => t
      case JInt(n) => Text.IntToDecimal(n)
      case JBool(b) => if b then "True" else "False"
      case JNull => if Stringified(col) then "None" else ""
  }

  /** The 13 cells written for account `id`: the ID, then each profile
      column as its field dictates. */
  function ProfileRow(id: string, user: UserInfo): (row: Row)
    ensures |row| == |RowHeaders| == |ProfileKeys| + 1
    ensures row[0] == id
    ensures forall i :: 1 <= i < |row| ==> row[i] == ExpectedCell(user, i)
  {
    var nickname := CsvCell(Get(user, "screen_name", JStr("")));
    var avatar := CsvCell(Get(user, "profile_image_url", JStr("")));
    var verified := PyStr(Get(user, "verified", JStr("")));
    var verifiedReason := CsvCell(Get(user, "verified_reason", JStr("")));
    var description := CsvCell(Get(user, "description", JStr("")));
    var location := CsvCell(Get(user, "location", JStr("")));
    var followers := PyStr(Get(user, "followers_count_str", JStr("")));
    var friends := PyStr(Get(user, "friends_count", JStr("")));
    var statuses := PyStr(Get(user, "statuses_count", JStr("")));
    var vvip := PyStr(Get(user, "vvip", JStr("")));
    var svip := PyStr(Get(user, "svip", JStr("")));
    var gender := PyStr(Get(user, "gender", JNull));
    var row := [id, nickname, avatar, verified, verifiedReason, description,
                location, followers, friends, statuses, vvip, svip, gender];
    assert forall i :: 1 <= i < |row| ==> row[i] == ExpectedCell(user, i) by {
      forall i | 1 <= i < |row| ensures row[i] == ExpectedCell(user, i) {
        if i == 1 { } else if i == 2 { } else if i == 3 { } else if i == 4 { }
        else if i == 5 { } else if i == 6 { } else if i == 7 { } else if i == 8 { }
        else if i == 9 { } else if i == 10 { } else if i == 11 { } else { }
      }
    }
    row
  }

  /** Two user objects hold the same value, or both nothing, under `key`. */
  predicate AgreeOn(u1: UserInfo, u2: UserInfo, key: string)
  {
    (key in u1 <==> key in u2) && (key in u1 ==> u1[key] == u2[key])
  }

  /** A row depends on `data.user` only through the twelve profile fields:
      two user objects that agree on those give the same row. */
  lemma OnlyProfileFieldsMatter(id: string, u1: UserInfo, u2: UserInfo)
    requires forall i :: 0 <= i < |ProfileKeys| ==> AgreeOn(u1, u2, ProfileKeys[i])
    ensures ProfileRow(id, u1) == ProfileRow(id, u2)
  {
    var r1, r2 := ProfileRow(id, u1), ProfileRow(id, u2);
    forall i | 1 <= i < |r1| ensures r1[i] == r2[i] {
      assert AgreeOn(u1, u2, ProfileKeys[i - 1]);
      assert ExpectedCell(u1, i) == ExpectedCell(u2, i);
    }
    assert r1 == r2;
  }

  /** A user object with only a nickname and a follower count: those two
      columns carry them, every other field column is empty and gender is
      `None`. */
  lemma NicknameAndFollowersOnly()
    ensures var row := ProfileRow("123", map["screen_name" := JStr("Alice"), "followers_count_str" := JStr("10")]);
      row == ["123", "Alice", "", "", "", "", "", "10", "", "", "", "", "None"]
  {
  }
}

=== FILE: profile_crawl.dfy ===
/** `get_user_info` and `parse_user_info` taken together: a fold over the
    configured account IDs, in list order, that skips an ID already in the
    profile table, otherwise fetches its profile and appends one row on
    success. The generator hands each response over before it resumes, so
    the append for one ID happens before the existence check of the next. */
module ProfileCrawl {
  import opened Wrappers
  import opened Profile
  import opened ProfileStore

  /** The decoded body of a status-200 response. `NotAnObject` covers bodies
      that are not JSON or not a JSON object; `user` is `None` when
      `data.user` is absent or not an object. */
  datatype Body = NotAnObject | Object(ok: Option<Value>, user: Option<UserInfo>)

  /** What `requests.get` returns for one profile request, or that it raised. */
  datatype Response = TransportError | Reply(status: int, body: Body)

  /** A response that is logged and skipped; the crawl goes on. */
  datatype SoftReason = BadStatus(status: int) | NotOk(ok: Value)

  /** An exception that escapes the loop and ends the run. */
  datatype FatalReason = RequestRaised | BodyNotAnObject | MissingOk | MissingUser

  /** What handling one response does. */
  datatype Handling = Stored(row: Row) | Soft(reason: SoftReason) | Fatal(fault: FatalReason)

  /** Python's `ok == 1`: true for the integer 1 and for `true`. */
  predicate EqualsOne(v: Value)
  {
    v == JInt(1) || v == JBool(true)
  }

  /** The response succeeded in the sense of `parse_user_info`. */
  predicate Succeeded(resp: Response)
  {
    && resp.Reply? && resp.status == 200 && resp.body.Object?
    && resp.body.ok.Some? && EqualsOne(resp.body.ok.value)
  }

  /** The consumer side of the loop for one fetched ID. A row is stored
      exactly when the status is 200 and `ok` equals 1; any other status or
      `ok` value is a soft failure; a status-200 body that cannot be read as
      expected raises. */
  function HandleResponse(id: string, resp: Response): (h: Handling)
    ensures h.Stored? <==> Succeeded(resp) && resp.body.user.Some?
    ensures h.Stored? ==> h.row == ProfileRow(id, resp.body.user.value)
    ensures h.Soft? <==>
              && resp.Reply?
              && (resp.status != 200 || (resp.body.Object? && resp.body.ok.Some? && !EqualsOne(resp.body.ok.value)))
    ensures resp.TransportError? ==> h == Fatal(RequestRaised)
    ensures resp.Reply? && resp.status != 200 ==> h == Soft(BadStatus(resp.status))
    ensures resp.Reply? && resp.status == 200 && resp.body.NotAnObject? ==> h == Fatal(BodyNotAnObject)
    ensures resp.Reply? && resp.status == 200 && resp.body.Object? && resp.body.ok.None? ==> h == Fatal(MissingOk)
    ensures (&& resp.Reply? && resp.status == 200 && resp.body.Object? && resp.body.ok.Some?
             && !EqualsOne(resp.body.ok.value))
            ==> h == Soft(NotOk(resp.body.ok.value))
    ensures Succeeded(resp) && resp.body.user.None? ==> h == Fatal(MissingUser)
  {
    match resp
    case TransportError => Fatal(RequestRaised)
    case Reply(status, body) =>
      if status != 200 then Soft(BadStatus(status))
      else match body
        case NotAnObject => Fatal(BodyNotAnObject)
        case Object(ok, user) =>
          match ok
          case None => Fatal(MissingOk)
          case Some(v) =>
            if !EqualsOne(v) then Soft(NotOk(v))
            else match user
              case None => Fatal(MissingUser)
              case Some(u) => Stored(ProfileRow(id, u))
  }

  /** One log entry per ID the loop got to. Only `Skipped` made no request. */
  datatype Event =
    | Skipped(id: string)
    | Appended(id: string, row: Row)
    | SoftFailed(id: string, reason: SoftReason)

  /** How a run ends: every ID processed, or an exception at `failedId` with
      the rows appended so far left in the table. */
  datatype CrawlResult =
    | Completed(store: Store, events: seq<Event>)
    | Aborted(store: Store, events: seq<Event>, failedId: string, reason: FatalReason)
  {
    function Prepend(e: Event): CrawlResult
    {
      this.(events := [e] + events)
    }
  }

  /** The rows the events appended, in order. */
  function RowsOf(events: seq<Event>): Store
  {
    if |events| == 0 then []
    else if events[0].Appended? then [events[0].row] + RowsOf(events[1..])
    else RowsOf(events[1..])
  }

  lemma {:induction false} RowsOfConcat(a: seq<Event>, b: seq<Event>)
    ensures RowsOf(a + b) == RowsOf(a) + RowsOf(b)
    decreases |a|
  {
    if |a| > 0 {
      assert (a + b)[0] == a[0];
      assert (a + b)[1..] == a[1..] + b;
      RowsOfConcat(a[1..], b);
      if a[0].Appended? {
        assert RowsOf(a + b) == [a[0].row] + (RowsOf(a[1..]) + RowsOf(b));
      }
    } else {
      assert a + b == b;
    }
  }

  /** One more event in front adds its row, if any, in front. */
  lemma {:induction false} RowsOfCons(e: Event, rest: seq<Event>)
    ensures RowsOf([e] + rest) == (if e.Appended? then [e.row] else []) + RowsOf(rest)
  {
    assert ([e] + rest)[0] == e;
    assert ([e] + rest)[1..] == rest;
  }

  /** A run of the remaining IDs from the table after the first ID's turn,
      with that turn's event put in front, is a run of all the IDs. */
  lemma PrependedRun(ids: seq<string>, store: Store, e: Event, storeAfter: Store, rest: CrawlResult)
    requires |ids| > 0 && e.id == ids[0]
    requires storeAfter == store + (if e.Appended? then [e.row] else [])
    requires |rest.events| <= |ids| - 1
    requires rest.Completed? ==> |rest.events| == |ids| - 1
    requires rest.Aborted? ==> |rest.events| < |ids| - 1 && rest.failedId == ids[1..][|rest.events|]
    requires forall i :: 0 <= i < |rest.events| ==> rest.events[i].id == ids[1..][i]
    requires rest.store == storeAfter + RowsOf(rest.events)
    ensures var r := rest.Prepend(e);
      && |r.events| <= |ids|
      && (r.Completed? ==> |r.events| == |ids|)
      && (r.Aborted? ==> |r.events| < |ids| && r.failedId == ids[|r.events|])
      && (forall i :: 0 <= i < |r.events| ==> r.events[i].id == ids[i])
      && r.store == store + RowsOf(r.events)
  {
    var r := rest.Prepend(e);
    RowsOfCons(e, rest.events);
    forall i | 0 <= i < |r.events| ensures r.events[i].id == ids[i] {
      if i > 0 {
        assert r.events[i] == rest.events[i - 1];
        assert ids[i] == ids[1..][i - 1];
      }
    }
    if r.Aborted? {
      assert ids[|r.events|] == ids[1..][|rest.events|];
    }
  }

  /** The profile crawl over `ids` starting from table `store`, with `fetch`
      standing for the upstream answer to a profile request. The table is only
      ever extended, by exactly the rows of the `Appended` events, and there
      is one event per processed ID, in list order. */
  function Crawl(ids: seq<string>, store: Store, fetch: string -> Response): (r: CrawlResult)
    ensures |r.events| <= |ids|
    ensures r.Completed? ==> |r.events| == |ids|
    ensures r.Aborted? ==> |r.events| < |ids| && r.failedId == ids[|r.events|]
    ensures forall i :: 0 <= i < |r.events| ==> r.events[i].id == ids[i]
    ensures r.store == store + RowsOf(r.events)
    decreases |ids|
  {
    if |ids| == 0 then Completed(store, [])
    else
      var id := ids[0];
      if UserInfoExists(store, id) then
        var rest := Crawl(ids[1..], store, fetch);
        PrependedRun(ids, store, Skipped(id), store, rest);
        rest.Prepend(Skipped(id))
      else match HandleResponse(id, fetch(id))
        case Stored(row) =>
          var rest := Crawl(ids[1..], store + [row], fetch);
          PrependedRun(ids, store, Appended(id, row), store + [row], rest);
          rest.Prepend(Appended(id, row))
        case Soft(reason) =>
          var rest := Crawl(ids[1..], store, fetch);
          PrependedRun(ids, store, SoftFailed(id, reason), store, rest);
          rest.Prepend(SoftFailed(id, reason))
        case Fatal(reason) => Aborted(store, [], id, reason)
  }

  /** What one ID's turn of the loop does, given the table as it stands:
      skip without a request when the ID is present, otherwise request and
      store or log the answer. */
  predicate Explains(store: Store, id: string, fetch: string -> Response, e: Event)
  {
    && e.id == id
    && (e.Skipped? <==> UserInfoExists(store, id))
    && (e.Appended? ==> HandleResponse(id, fetch(id)) == Stored(e.row))
    && (e.SoftFailed? ==> HandleResponse(id, fetch(id)) == Soft(e.reason))
  }

  /** The table before event `j + 1` of `[first] + rest` is the table after
      `first` extended by the rows of `rest` before `j`. */
  lemma {:induction false} TableBeforeShifted(store: Store, first: Event, rest: seq<Event>, j: nat)
    requires j < |rest|
    ensures store + RowsOf(([first] + rest)[..j + 1]) == store + RowsOf([first]) + RowsOf(rest[..j])
  {
    assert ([first] + rest)[..j + 1] == [first] + rest[..j];
    RowsOfConcat([first], rest[..j]);
  }

  /** Prefixing one explained event to an explained run of the remaining IDs
      gives an explained run of all of them. */
  lemma {:induction false} ShiftExplains(ids: seq<string>, store: Store, fetch: string -> Response,
                      first: Event, rest: seq<Event>)
    requires 0 < |ids| && |rest| < |ids|
    requires Explains(store, ids[0], fetch, first)
    requires forall i :: 0 <= i < |rest| ==>
      Explains(store + RowsOf([first]) + RowsOf(rest[..i]), ids[1..][i], fetch, rest[i])
    ensures var events := [first] + rest;
      forall i :: 0 <= i < |events| ==> Explains(store + RowsOf(events[..i]), ids[i], fetch, events[i])
  {
    var events := [first] + rest;
    assert events[..0] == [];
    assert store + RowsOf(events[..0]) == store;
    forall i | 1 <= i < |events|
      ensures Explains(store + RowsOf(events[..i]), ids[i], fetch, events[i])
    {
      TableBeforeShifted(store, first, rest, i - 1);
      assert ids[i] == ids[1..][i - 1] && events[i] == rest[i - 1];
    }
  }

  /** Every event is explained by the table as it stood at that point of the
      run, i.e. including the rows appended earlier in the same run. An abort
      happens at an ID that is not yet present and whose response raises. */
  lemma {:induction false} CrawlTrace(ids: seq<string>, store: Store, fetch: string -> Response)
    ensures var r := Crawl(ids, store, fetch);
      && (forall i :: 0 <= i < |r.events| ==>
            Explains(store + RowsOf(r.events[..i]), ids[i], fetch, r.events[i]))
      && (r.Aborted? ==>
            && !UserInfoExists(r.store, r.failedId)
            && HandleResponse(r.failedId, fetch(r.failedId)) == Fatal(r.reason))
    decreases |ids|
  {
    if |ids| > 0 {
      var id := ids[0];
      if UserInfoExists(store, id) {
        var first := Skipped(id);
        CrawlTrace(ids[1..], store, fetch);
        assert RowsOf([first]) == [];
        assert store + RowsOf([first]) == store;
        ShiftExplains(ids, store, fetch, first, Crawl(ids[1..], store, fetch).events);
      } else {
        match HandleResponse(id, fetch(id))
        case Stored(row) =>
          var first := Appended(id, row);
          CrawlTrace(ids[1..], store + [row], fetch);
          assert RowsOf([first]) == [row];
          ShiftExplains(ids, store, fetch, first, Crawl(ids[1..], store + [row], fetch).events);
        case Soft(reason) =>
          var first := SoftFailed(id, reason);
          CrawlTrace(ids[1..], store, fetch);
          assert RowsOf([first]) == [];
          assert store + RowsOf([first]) == store;
          ShiftExplains(ids, store, fetch, first, Crawl(ids[1..], store, fetch).events);
        case Fatal(_) =>
      }
    }
  }

  /** The rows appended by events before index `j` include the row of every
      `Appended` event before `j`. */
  lemma {:induction false} EarlierRowsAppended(events: seq<Event>, i: nat, j: nat)
    requires i < j <= |events| && events[i].Appended?
    ensures events[i].row in RowsOf(events[..j])
    decreases j
  {
    if j == i + 1 {
      assert events[..j] == events[..i] + [events[i]];
      RowsOfConcat(events[..i], [events[i]]);
    } else {
      EarlierRowsAppended(events, i, j - 1);
      assert events[..j] == events[..j - 1] + [events[j - 1]];
      RowsOfConcat(events[..j - 1], [events[j - 1]]);
    }
  }

  /** Every appended row is a profile row of its own ID. */
  lemma {:induction false} AppendedRowShape(ids: seq<string>, store: Store, fetch: string -> Response, i: nat)
    requires i < |Crawl(ids, store, fetch).events|
    requires Crawl(ids, store, fetch).events[i].Appended?
    ensures var e := Crawl(ids, store, fetch).events[i];
      |e.row| == |RowHeaders| && e.row[0] == ids[i]
  {
    var r := Crawl(ids, store, fetch);
    CrawlTrace(ids, store, fetch);
    assert Explains(store + RowsOf(r.events[..i]), ids[i], fetch, r.events[i]);
  }

  /** Within one run an ID gains at most one row: an ID already in the table
      gains none, and two appends never carry the same ID. */
  lemma {:induction false} AtMostOneRowPerId(ids: seq<string>, store: Store, fetch: string -> Response)
    ensures var r := Crawl(ids, store, fetch);
      forall i :: 0 <= i < |r.events| && r.events[i].Appended? ==> !UserInfoExists(store, r.events[i].id)
    ensures var r := Crawl(ids, store, fetch);
      forall i, j :: 0 <= i < j < |r.events| && r.events[i].Appended? && r.events[j].Appended?
        ==> r.events[i].id != r.events[j].id
  {
    var r := Crawl(ids, store, fetch);
    CrawlTrace(ids, store, fetch);
    forall i | 0 <= i < |r.events| && r.events[i].Appended?
      ensures !UserInfoExists(store, r.events[i].id)
    {
      assert Explains(store + RowsOf(r.events[..i]), ids[i], fetch, r.events[i]);
      ExistsAfterAppend(store, RowsOf(r.events[..i]), ids[i]);
    }
    forall i, j | 0 <= i < j < |r.events| && r.events[i].Appended? && r.events[j].Appended?
      ensures r.events[i].id != r.events[j].id
    {
      AppendedRowShape(ids, store, fetch, i);
      EarlierRowsAppended(r.events, i, j);
      var before := RowsOf(r.events[..j]);
      var k :| 0 <= k < |before| && before[k] == r.events[i].row;
      ExistsAfterAppend(store, before, r.events[i].id);
      assert Explains(store + before, ids[j], fetch, r.events[j]);
    }
  }

  /** An ID present in the table before the run is never requested: each of
      its turns is a skip, and the run cannot abort on it. */
  lemma {:induction false} StoredIdsAreNotFetched(ids: seq<string>, store: Store, fetch: string -> Response, id: string)
    requires UserInfoExists(store, id)
    ensures var r := Crawl(ids, store, fetch);
      && (forall i :: 0 <= i < |r.events| && ids[i] == id ==> r.events[i].Skipped?)
      && (r.Aborted? ==> r.failedId != id)
  {
    var r := Crawl(ids, store, fetch);
    CrawlTrace(ids, store, fetch);
    forall i | 0 <= i < |r.events| && ids[i] == id
      ensures r.events[i].Skipped?
    {
      ExistsAfterAppend(store, RowsOf(r.events[..i]), id);
      assert Explains(store + RowsOf(r.events[..i]), ids[i], fetch, r.events[i]);
    }
    ExistsAfterAppend(store, RowsOf(r.events), id);
  }

  /** Soft failures never end the run: if no response for an ID missing
      from the table raises, every ID is processed. IDs present in the table
      are never requested, so their answers do not matter. */
  lemma {:induction false} SoftFailuresDoNotAbort(ids: seq<string>, store: Store, fetch: string -> Response)
    requires forall i :: 0 <= i < |ids| && !UserInfoExists(store, ids[i]) ==>
      !HandleResponse(ids[i], fetch(ids[i])).Fatal?
    ensures Crawl(ids, store, fetch).Completed?
    decreases |ids|
  {
    if |ids| > 0 {
      assert forall i :: 0 <= i < |ids[1..]| ==> ids[1..][i] == ids[i + 1];
      if UserInfoExists(store, ids[0]) {
        SoftFailuresDoNotAbort(ids[1..], store, fetch);
      } else {
        match HandleResponse(ids[0], fetch(ids[0]))
        case Stored(row) =>
          forall i | 0 <= i < |ids[1..]| && !UserInfoExists(store + [row], ids[1..][i])
            ensures !HandleResponse(ids[1..][i], fetch(ids[1..][i])).Fatal?
          {
            ExistsAfterAppend(store, [row], ids[1..][i]);
          }
          SoftFailuresDoNotAbort(ids[1..], store + [row], fetch);
        case Soft(_) =>
          SoftFailuresDoNotAbort(ids[1..], store, fetch);
      }
    }
  }

  /** After a turn that left its ID present or appended its row, the ID is
      in the table at the end of the run, unless the turn only logged. */
  lemma {:induction false} PresentAfterTurn(store: Store, events: seq<Event>, i: nat, id: string, fetch: string -> Response)
    requires i < |events|
    requires Explains(store + RowsOf(events[..i]), id, fetch, events[i])
    requires events[i].Appended? ==> |events[i].row| > 0 && events[i].row[0] == id
    ensures UserInfoExists(store + RowsOf(events), id) || HandleResponse(id, fetch(id)).Soft?
  {
    var before := store + RowsOf(events[..i]);
    var after := RowsOf(events[i..]);
    assert events == events[..i] + events[i..];
    RowsOfConcat(events[..i], events[i..]);
    assert store + RowsOf(events) == before + after;
    ExistsAfterAppend(before, after, id);
    var e := events[i];
    if e.Skipped? {
      assert UserInfoExists(before, id);
    } else if e.Appended? {
      RowsOfCons(e, events[i + 1..]);
      assert events[i..] == [e] + events[i + 1..];
      assert after[0] == e.row;
    } else {
      assert HandleResponse(id, fetch(id)) == Soft(e.reason);
    }
  }

  /** Every ID the run got to is in the table at its end, or its response
      is one that the loop only logs. */
  lemma {:induction false} ProcessedIdsSettle(ids: seq<string>, store: Store, fetch: string -> Response)
    ensures var r := Crawl(ids, store, fetch);
      forall i :: 0 <= i < |r.events| ==>
        UserInfoExists(r.store, ids[i]) || HandleResponse(ids[i], fetch(ids[i])).Soft?
  {
    var r := Crawl(ids, store, fetch);
    CrawlTrace(ids, store, fetch);
    forall i | 0 <= i < |r.events|
      ensures UserInfoExists(r.store, ids[i]) || HandleResponse(ids[i], fetch(ids[i])).Soft?
    {
      if r.events[i].Appended? {
        AppendedRowShape(ids, store, fetch, i);
      }
      PresentAfterTurn(store, r.events, i, ids[i], fetch);
    }
  }

  /** After a completed run every ID is in the table, or its response is one
      that the loop only logs. */
  lemma {:induction false} CompletedRunSettlesEveryId(ids: seq<string>, store: Store, fetch: string -> Response)
    requires Crawl(ids, store, fetch).Completed?
    ensures var r := Crawl(ids, store, fetch);
      forall i :: 0 <= i < |ids| ==>
        UserInfoExists(r.store, ids[i]) || HandleResponse(ids[i], fetch(ids[i])).Soft?
  {
    ProcessedIdsSettle(ids, store, fetch);
  }

  /** A run in which every ID is present or answered with a logged failure
      adds nothing and completes. */
  lemma {:induction false} SettledRunAppendsNothing(ids: seq<string>, store: Store, fetch: string -> Response)
    requires forall i :: 0 <= i < |ids| ==>
      UserInfoExists(store, ids[i]) || HandleResponse(ids[i], fetch(ids[i])).Soft?
    ensures Crawl(ids, store, fetch) == Completed(store, Crawl(ids, store, fetch).events)
    ensures forall e :: e in Crawl(ids, store, fetch).events ==> !e.Appended?
    decreases |ids|
  {
    if |ids| > 0 {
      assert forall i :: 0 <= i < |ids[1..]| ==> ids[1..][i] == ids[i + 1];
      SettledRunAppendsNothing(ids[1..], store, fetch);
    }
  }

  /** Re-running with every ID already stored requests nothing and appends
      nothing. */
  lemma {:induction false} RerunWithAllStoredIsANoOp(ids: seq<string>, store: Store, fetch: string -> Response)
    requires forall i :: 0 <= i < |ids| ==> UserInfoExists(store, ids[i])
    ensures Crawl(ids, store, fetch).Completed?
    ensures Crawl(ids, store, fetch).store == store
    ensures forall e :: e in Crawl(ids, store, fetch).events ==> e.Skipped?
  {
    SettledRunAppendsNothing(ids, store, fetch);
    var r := Crawl(ids, store, fetch);
    CrawlTrace(ids, store, fetch);
    forall e | e in r.events ensures e.Skipped? {
      var i :| 0 <= i < |r.events| && r.events[i] == e;
      assert Explains(store + RowsOf(r.events[..i]), ids[i], fetch, e);
      ExistsAfterAppend(store, RowsOf(r.events[..i]), ids[i]);
    }
  }

  /** A run whose first `k` IDs are present or only logged, and whose ID at
      `k` is missing and raises, aborts there with the table untouched. */
  lemma {:induction false} SettledThenFatal(ids: seq<string>, store: Store, fetch: string -> Response, k: nat)
    requires k < |ids|
    requires forall i :: 0 <= i < k ==>
      UserInfoExists(store, ids[i]) || HandleResponse(ids[i], fetch(ids[i])).Soft?
    requires !UserInfoExists(store, ids[k]) && HandleResponse(ids[k], fetch(ids[k])).Fatal?
    ensures var r := Crawl(ids, store, fetch);
      && r.Aborted? && r.store == store && |r.events| == k
      && r.failedId == ids[k] && r.reason == HandleResponse(ids[k], fetch(ids[k])).fault
    decreases k
  {
    if k > 0 {
      assert forall i :: 0 <= i < |ids[1..]| ==> ids[1..][i] == ids[i + 1];
      SettledThenFatal(ids[1..], store, fetch, k - 1);
    }
  }

  /** Idempotence: against the same upstream answers, a second run leaves the
      table exactly as the first run left it, and ends the same way: it
      completes when the first did, and otherwise aborts at the same ID for
      the same reason. */
  lemma {:induction false} CrawlIdempotent(ids: seq<string>, store: Store, fetch: string -> Response)
    ensures var first := Crawl(ids, store, fetch);
      var second := Crawl(ids, first.store, fetch);
      && second.store == first.store
      && second.Completed? == first.Completed?
      && (first.Aborted? ==> second.failedId == first.failedId && second.reason == first.reason)
  {
    var first := Crawl(ids, store, fetch);
    ProcessedIdsSettle(ids, store, fetch);
    if first.Completed? {
      SettledRunAppendsNothing(ids, first.store, fetch);
    } else {
      CrawlTrace(ids, store, fetch);
      SettledThenFatal(ids, first.store, fetch, |first.events|);
    }
  }
}

=== FILE: profile_store.dfy ===
/** The profile table `weibo_user_info.csv`, abstracted to the sequence of rows
    a CSV reader returns: created with a header row, then only appended to. */
module ProfileStore {
  import opened Wrappers
  import opened Profile

  type Store = seq<Row>

  /** The table as `__init__` leaves it: an existing file is kept as is, a
      missing one is created holding only the header row. */
  function InitStore(existing: Option<Store>): Store
  {
    match existing
    case Some(rows) => rows
    case None => [RowHeaders]
  }

  /** `check_user_info_exist`: some non-empty row has `id` in its first column.
      No other column is looked at, and the header row takes part. */
  function UserInfoExists(store: Store, id: string): (b: bool)
    ensures b <==> exists i :: 0 <= i < |store| && |store[i]| > 0 && store[i][0] == id
    decreases |store|
  {
    if |store| == 0 then false
    else if |store[0]| > 0 && store[0][0] == id then true
    else
      var rest := UserInfoExists(store[1..], id);
      assert forall i :: 1 <= i < |store| ==> store[i] == store[1..][i - 1];
      rest
  }

  /** Appending rows never makes a present ID disappear, and a row appended
      with `id` in front makes `id` present. */
  lemma {:induction false} ExistsAfterAppend(store: Store, added: Store, id: string)
    ensures UserInfoExists(store, id) ==> UserInfoExists(store + added, id)
    ensures (exists j :: 0 <= j < |added| && |added[j]| > 0 && added[j][0] == id)
            ==> UserInfoExists(store + added, id)
  {
    if UserInfoExists(store, id) {
      var i :| 0 <= i < |store| && |store[i]| > 0 && store[i][0] == id;
      assert (store + added)[i] == store[i];
    }
    if exists j :: 0 <= j < |added| && |added[j]| > 0 && added[j][0] == id {
      var j :| 0 <= j < |added| && |added[j]| > 0 && added[j][0] == id;
      assert (store + added)[|store| + j] == added[j];
    }
  }

  /** A freshly created table already "contains" the ID `id` (its header
      cell), and no other ID. */
  lemma FreshStoreKnowsOnlyHeaderId(id: string)
    ensures UserInfoExists(InitStore(None), id) <==> id == "id"
  {
  }
}

=== FILE: text.dfy ===
/** Python string helpers the crawler relies on: `str.split` with an explicit
    one-character separator, its inverse `sep.join`, and `str(int)`. */
module Text {

  /** `[sep].join(parts)`: the parts with one separator between neighbours. */
  function Join(parts: seq<string>, sep: char): string
  {
    if |parts| == 0 then ""
    else if |parts| == 1 then parts[0]
    else parts[0] + [sep] + Join(parts[1..], sep)
  }

  /** `s.split(sep)`: the maximal separator-free pieces between separators.
      An empty string gives one empty piece, and a trailing separator gives
      a trailing empty piece, as in Python. */
  function Split(s: string, sep: char): (parts: seq<string>)
    ensures |parts| >= 1
    ensures forall i :: 0 <= i < |parts| ==> sep !in parts[i]
    ensures Join(parts, sep) == s
    decreases |s|
  {
    if |s| == 0 then [""]
    else
      var rest := Split(s[1..], sep);
      if s[0] == sep then
        assert s == [sep] + s[1..];
        [""] + rest
      else
        assert s == [s[0]] + s[1..];
        [[s[0]] + rest[0]] + rest[1..]
  }

  /** A join of two or more pieces shows the separator right after the first piece. */
  lemma {:induction false} JoinShowsSeparator(parts: seq<string>, sep: char)
    requires |parts| >= 2
    ensures Join(parts, sep) == parts[0] + [sep] + Join(parts[1..], sep)
    ensures |parts[0]| < |Join(parts, sep)| && Join(parts, sep)[|parts[0]|] == sep
  {
  }

  /** The separator occurs in `s` exactly when `split` cuts `s` into two or more pieces. */
  lemma {:induction false} SplitCutsIff(s: string, sep: char)
    ensures sep in s <==> |Split(s, sep)| >= 2
  {
    var parts := Split(s, sep);
    if |parts| >= 2 {
      JoinShowsSeparator(parts, sep);
    } else {
      assert s == parts[0];
    }
  }

  /** Splitting a join of separator-free pieces gives the pieces back. */
  lemma {:induction false} SplitJoin(parts: seq<string>, sep: char)
    requires |parts| >= 1
    requires forall i :: 0 <= i < |parts| ==> sep !in parts[i]
    ensures Split(Join(parts, sep), sep) == parts
    decreases |Join(parts, sep)|
  {
    var s := Join(parts, sep);
    if |parts[0]| == 0 {
      if |parts| == 1 {
        assert s == "";
      } else {
        assert s == [sep] + Join(parts[1..], sep);
        assert s[1..] == Join(parts[1..], sep);
        SplitJoin(parts[1..], sep);
        assert parts == [""] + parts[1..];
      }
    } else {
      var c := parts[0][0];
      assert c != sep by { assert c in parts[0]; }
      var shorter := [parts[0][1..]] + parts[1..];
      forall i | 0 <= i < |shorter|
        ensures sep !in shorter[i]
      {
        if i == 0 {
          assert forall x :: x in parts[0][1..] ==> x in parts[0];
        } else {
          assert shorter[i] == parts[i];
        }
      }
      if |parts| == 1 {
        assert Join(shorter, sep) == parts[0][1..];
      } else {
        assert Join(shorter, sep) == parts[0][1..] + [sep] + Join(parts[1..], sep);
      }
      assert s == [c] + Join(shorter, sep);
      assert s[1..] == Join(shorter, sep);
      SplitJoin(shorter, sep);
      assert parts[0] == [c] + parts[0][1..];
      assert parts == [[c] + shorter[0]] + shorter[1..];
    }
  }

  predicate IsDigit(c: char)
  {
    '0' <= c <= '9'
  }

  function DigitValue(c: char): nat
    requires IsDigit(c)
  {
    c as int - '0' as int
  }

  function DigitChar(d: nat): (c: char)
    requires d < 10
    ensures IsDigit(c)
    ensures c as int - '0' as int == d
  {
    ('0' as int + d) as char
  }

  /** `str(n)` for a non-negative Python int: decimal digits, no leading zero. */
  function NatToDecimal(n: nat): (s: string)
    ensures |s| >= 1
    ensures forall i :: 0 <= i < |s| ==> IsDigit(s[i])
    ensures s[0] == '0' ==> s == "0"
  {
    if n < 10 then [DigitChar(n)]
    else NatToDecimal(n / 10) + [DigitChar(n % 10)]
  }

  /** The number a string of decimal digits denotes. */
  function DecimalValue(s: string): nat
    requires forall i :: 0 <= i < |s| ==> IsDigit(s[i])
  {
    if |s| == 0 then 0
    else 10 * DecimalValue(s[..|s| - 1]) + DigitValue(s[|s| - 1])
  }

  /** Reading back the decimal text of `n` gives `n`. */
  lemma {:induction false} DecimalRoundTrip(n: nat)
    ensures DecimalValue(NatToDecimal(n)) == n
  {
    if n >= 10 {
      var s := NatToDecimal(n);
      assert s[..|s| - 1] == NatToDecimal(n / 10);
      DecimalRoundTrip(n / 10);
    }
  }

  /** `str(n)` for any Python int. */
  function IntToDecimal(n: int): string
  {
    if n < 0 then "-" + NatToDecimal(-n) else NatToDecimal(n)
  }
}

=== FILE: wrappers.dfy ===
/** Failure-compatible Option and Result types used throughout the model. */
module Wrappers {

  datatype Option<+T> = None | Some(value: T)

  /** Either a value or the error that the crawler raises instead of it. */
  datatype Result<+R, +E> = Success(value: R) | Failure(error: E) {

    predicate IsFailure() {
      Failure?
    }

    function PropagateFailure<U>(): Result<U, E>
      requires Failure?
    {
      Failure(error)
    }

    function Extract(): R
      requires Success?
    {
      value
    }
  }
}
